=== FILE: README.md ===
# Food scanner: client workflow and server post-processing in Dafny

The food scanner lets a user pick or drop a photo of food in the browser. The
page redraws the photo at most 1024 pixels wide, re-encodes it as a JPEG and
posts it to `/api/analyze`. The server sends it to a vision model, cleans up
the model's text reply, converts every nutrient value from "per 100 g" to
"per gram", and answers with JSON. The page then shows either an advisory
message or one card per food.

This project models the decisions of both sides as pure functions over
immutable datatypes and proves properties about them:

- `wrappers.dfy` (`Wrappers`): `Option` and `Result`.
- `text.dfy` (`Text`): Python's whitespace class, `strip()`, ASCII digits, and
  naturals written in decimal.
- `normalizer.dfy` (`Normalizer`): the image-type gate, the canvas geometry,
  and the artifact stored by the `toBlob` callback.
- `results.dfy` (`Results`): `displayResults` as a map from a reply body to a
  list of view blocks.
- `workflow.dfy` (`Workflow`): the page as a state machine. The state is five
  section-visibility flags, the `resizedFile` slot, the error text, the results
  view and the picker's selection. Every handler and every asynchronous
  completion is one event, and events may come in any order.
- `fences.dfy` (`Fences`): the markdown-fence clean-up of the model's reply.
- `nutrients.dfy` (`Nutrients`): a JSON value datatype, the first-number
  search, and the per-gram conversion walk. The walk includes the TypeError
  paths for replies of an unexpected shape.
- `server.dfy` (`Server`): request validation, the shrink-or-pass-through
  decision of `resize_image`, and the handler's response.

Choices the model makes:

- **Scaled height.** It is the floor of `height * 1024 / width`. The page
  assigns a double to `canvas.height`, an unsigned long, which keeps the
  integer part. A rounded height would be the natural reading of "keep the
  aspect ratio", but the code truncates, and the model follows the code.
- **Nutrient formatting.** A whole-number literal below 10^15 is formatted
  exactly as `n / 100` with two decimals. Any other value goes through a
  function parameter `fmt` that stands for `%.2f` of the double.
- **Foreign calls are parameters.** The model call, `json.loads` and `str(e)`
  are passed in as function parameters. What the imaging library would read
  from the bytes is carried as data on the upload.
- **Initial visibility.** The page's HTML is not part of this model. The
  initial state assumed is: the upload section visible, every other section
  hidden, and nothing prepared.

Where the intended page flow and the code part ways, the model follows the
code:

- The five sections are meant to show one step of the flow at a time. In the
  code they are independent flags, and clear and file-read leave `loading` as
  it is.
- A new selection is meant to supersede the previous one. In the code it does
  not empty `resizedFile`, so an earlier artifact can be sent
  (`Workflow.StaleArtifactSentAfterReselect`). A `toBlob` callback that runs
  after clear refills the slot (`Workflow.LateBlobAfterClear`).
- An image that fails to decode is meant to leave the page at file
  selection. In the code the preview is shown as soon as the file is read,
  before the image decodes.
- Only one analysis is meant to be in flight at a time. The code guards
  analyze only on `resizedFile`.

## Model

| member | source | states |
|---|---|---|
| Normalizer.TargetSize | static/script.js:58-64 | The output width is never above 1024. A wider image gets width exactly 1024, and its height is the integer part of height·1024/width, stated as the two-sided bound. An image at most 1024 wide is kept as it is. |
| Normalizer.NoUpscaling | static/script.js:58-64 | Neither output dimension exceeds the decoded one. |
| Normalizer.AspectWithinOnePixel | static/script.js:61-64 | The scaled height falls short of the exact proportional height by less than one pixel. |
| Normalizer.TargetSizeIdempotent | static/script.js:58-64 | Resizing an already resized image changes nothing. |
| Normalizer.WideExample | static/script.js:58-64 | A 2000×1000 image becomes 1024×512. |
| Normalizer.Normalize | static/script.js:58-79 | The stored artifact keeps the source file's name, is typed image/jpeg, and has exactly the canvas size: at most 1024 wide, no larger than the decoded image, and a wide image becomes 1024 wide with the scaled height. |
| Results.Cards | static/script.js:163-189 | One card per food, in list order, showing name and the four nutrients verbatim. |
| Results.Render | static/script.js:140-198 | A truthy message yields exactly the advisory block and the button, and any foods are ignored. Otherwise the view is the heading, one card per listed food in order (none when the list is missing or empty), then the button. The button always comes last. |
| Results.RenderShowsFoodsInOrder | static/script.js:145-189 | Reading the cards back from a rendered view gives exactly the reply's food list, or nothing when a message took precedence. |
| Results.AppleExample | static/script.js:157-197 | A one-food reply renders the heading, one card with that food's values, and the button. |
| Workflow.FailureText | static/script.js:127-128 | The banner text is the body's error when it is truthy, and "Analysis failed" otherwise. |
| Workflow.Init | static/script.js:12 | The loaded page holds no artifact (`resizedFile` starts null) and no picker selection, and its error banner does not show without the preview. |
| Workflow.Step | static/script.js:26-138 | The file is read exactly when one is present and its type starts with "image/", and the file read is the event's file. A rejected or missing drop alerts "Please drop an image file (JPG or PNG)", a rejected pick alerts "Please select an image file (JPG or PNG)", an empty pick does nothing visible, and the picker holds a file exactly when its pick was accepted. Drop and picker events never change a section or the slot, and a rejected drop changes nothing. A request is posted exactly on analyze with a stored artifact; it carries that artifact, and it is the only way loading becomes visible. The slot changes only on the blob callback, which stores the normalized artifact, and on clear and reload, which empty it. |
| Workflow.StepKeepsErrorOverPreview | static/script.js:83-136 | No event shows the error banner without the preview. |
| Workflow.ErrorAlwaysOverPreview | static/script.js:83-136 | For every event sequence in any order, the error banner is visible only together with the preview. |
| Workflow.PostedArtifactWasStored | static/script.js:105-111 | Every posted request carries exactly the artifact held in the slot at that point of the run. |
| Workflow.SlotOrigin | static/script.js:74-100 | After any event sequence, a filled slot holds either what it held at the start or the artifact some blob callback of the sequence made for its file and decoded size. |
| Workflow.PostedArtifactOrigin | static/script.js:74-111 | Every posted artifact was held at the start or made by an earlier blob callback of the run. |
| Workflow.PostedFromEmptySlotWasNormalized | static/script.js:74-111 | Starting with nothing prepared, as the loaded page does, every posted artifact is the normalization of the file and size of an earlier blob callback. |
| Workflow.AnalyzeNotReady | static/script.js:105-108 | Analyze with an empty slot only raises the not-ready alert and changes no state. |
| Workflow.StaleArtifactSentAfterReselect | static/script.js:74-87 | After picking a new image and reading it, the preview shows. If the new blob callback has not run yet, analyze posts the previous artifact. |
| Workflow.LateBlobAfterClear | static/script.js:93-101 | A blob callback that runs after clear refills the slot while the upload section shows. |
| Workflow.ClearResets | static/script.js:93-101 | Clear empties the slot and the picker, shows upload, hides preview, error and results, and keeps loading. |
| Workflow.FileReadShowsPreview | static/script.js:83-87 | A finished read hides upload, error and results and shows the preview. Loading and the slot are untouched. |
| Workflow.AnalyzeShowsLoading | static/script.js:110-116 | Analyze with an artifact posts it to /api/analyze under "image", hides preview, error and results, and shows loading. |
| Workflow.FailureShowsBanner | static/script.js:125-136 | A failed answer hides loading and shows preview and the banner with the body's error or "Analysis failed". Upload, results and the slot are kept. |
| Workflow.ThrownRequestShowsBanner | static/script.js:132-136 | A request that throws hides loading, shows preview and the banner with the thrown message, and changes nothing else. |
| Workflow.ReloadStartsOver | static/script.js:192 | The results' button reloads the page, which returns to the initial state with no effect. |
| Workflow.SuccessShowsResults | static/script.js:124-131 | A successful answer hides loading, shows results with the rendered reply, and leaves preview and error as they were. |
| Text.TrimShape | app.py:107 | `strip()` removes exactly a leading and a trailing run of whitespace, leaving text that neither starts nor ends with whitespace. |
| Text.TrimLeftShape | app.py:107-109 | Dropping leading whitespace, as `strip()` and a trailing `\s*` do, removes exactly a leading run of whitespace and leaves text that does not begin with whitespace. |
| Text.ShowNatRoundTrip | app.py:122 | The decimal text of a natural reads back as the same number. |
| Fences.RemoveAllSkipsPlain | app.py:108-109 | The substitution leaves backtick-free text untouched and goes on behind it. |
| Fences.NoBacktickOnlyTrims | app.py:107-109 | A reply with no backtick is only stripped. |
| Fences.JsonBlockUnwrapped | app.py:107-109 | "```json\n" + body + "\n```" with a backtick-free body becomes the body plus the final line break, without its leading whitespace. |
| Fences.TagFreeUntouched | app.py:108-109 | Text in which the pattern's tag does not occur comes out of the substitution unchanged, lone backticks and the whitespace after them included. |
| Fences.FenceFreeUntouched | app.py:109 | Text without "```" comes out of the plain-fence substitution unchanged. |
| Fences.FenceFreeOnlyTrims | app.py:107-109 | A reply whose stripped text holds no "```" is only stripped. |
| Fences.RemoveAllFenceFree | app.py:109 | No "```" is left after the plain-fence substitution, whatever the input. |
| Fences.StripFencesFenceFree | app.py:107-109 | The cleaned reply contains no fence at all. |
| Nutrients.FirstNumber | app.py:119 | A match exists exactly when the text has a digit. It is the substring of the text that starts at the first digit, holds only digits and at most one point, and cannot be extended by a digit, nor by a point while it has none. |
| Nutrients.FirstNumberIsTheMatch | app.py:119 | The leftmost greedy match of `\d+\.?\d*` is unique: any substring meeting that description is the one returned. |
| Nutrients.MatchIsDecimal | app.py:119-124 | The matched text is always a plain decimal literal, so float() accepts it and the "N/A" branch is unreachable. |
| Nutrients.PerGramShape | app.py:119-124 | Text without a digit is unchanged. For text with a digit the first number always parses, so "N/A" never appears, and the new text is that number over 100 with two decimals (exact for whole numbers below 10^15, `fmt` otherwise) followed by "g". |
| Nutrients.PerGramWhole | app.py:119-122 | When the first number is a whole count n, the result is n/100 with two decimals plus "g". |
| Nutrients.TwoPlacesReadsBack | app.py:122 | The two-decimal text reads back as a literal with exactly two decimals whose value times 100 is n, and its whole part is canonical: at least one digit and no leading zero. |
| Nutrients.ThirtyOneGrams | app.py:119-122 | "31g" becomes "0.31g". |
| Nutrients.ZeroGrams | app.py:119-122 | "0g" becomes "0.00g". |
| Nutrients.ConvertKeysPointwise | app.py:116-124 | The loop over distinct nutrient names keeps the key set. It converts each listed key that holds a string and keeps every other value. |
| Nutrients.ConvertFoodObject | app.py:115-124 | A food object always converts. Its keys are kept, and only the four nutrient strings change; name and other keys are kept. |
| Nutrients.ParseDecimal | app.py:121 | An accepted literal is its whole digits alone, or its whole digits, a point and its fraction digits, with at least one digit in all. |
| Nutrients.DigitsOnlyParse | app.py:121 | A non-empty run of digits is accepted as a whole number with no fraction. |
| Nutrients.PointedParse | app.py:121 | Digits, one point and digits, with at least one digit before the point, are accepted and split at the point. |
| Nutrients.ConvertList | app.py:115 | The loop succeeds exactly when every food converts. It then keeps the list's length and order, element by element. |
| Nutrients.ConvertReply | app.py:114-124 | A reply without "foods" is unchanged. A converted object keeps its keys and every entry other than "foods". |
| Nutrients.OddShapesFail | app.py:114-117 | A bare number, boolean or null reply, such a value under "foods", or such a value among the foods makes the walk raise a TypeError, which the handler turns into a 500. |
| Nutrients.WellShapedReplyConverts | app.py:114-124 | An object whose foods is a list of objects always converts. The list keeps its length and order, and each food keeps its keys, with only nutrient strings converted. |
| Server.ResizeForModel | app.py:31-55 | A pass-through payload keeps the upload's media type. A shrunk payload is image/jpeg and only happens for an image that opens and exceeds 1024 on a side. |
| Server.ShrunkExactly | app.py:38-55 | The upload is shrunk exactly when it opens, exceeds 1024 on either side and can be saved as JPEG. Every failure passes the original through. |
| Server.Validate | app.py:66-72 | A missing image part fails with "No image file provided.", an empty filename fails with "No image file selected.", and otherwise the part is accepted. |
| Server.Analyze | app.py:63-132 | The response is a 400 exactly when validation fails, with its message. Past validation: a failed model call is an unexpected error; the reply is unparsable exactly when its cleaned text does not parse, and it reports that cleaned text; the answer is 200 exactly when the cleaned text parses and the per-gram walk succeeds, and it carries the converted reply. |
| Server.Status | app.py:66-132 | 200 exactly for an analysed reply, 400 exactly for a refused request, and 500 exactly for a reply that did not parse or an unexpected error. |
| Server.Body | app.py:66-132 | A 200 body is the converted reply. A 400 body holds only the validation message under "error". A parse failure holds "Failed to parse the response from the AI model." and the cleaned text under "raw_response". An unexpected error holds "An unexpected error occurred: " followed by the exception's text. |
| Server.MissingImageRefused | app.py:66-72 | A request without an image part, or with an empty filename, answers 400 with the matching error body. |
| Server.AnalysedIsConverted | app.py:107-126 | A 200 answer is the parsed, cleaned model reply after the per-gram conversion. |

Functions whose contract is carried by the lemmas above rather than by an `ensures` of their own:

- `Fences.RemoveAll` and `Fences.StripFences` (app.py:107-109): by `Fences.RemoveAllSkipsPlain`, `Fences.NoBacktickOnlyTrims`, `Fences.TagFreeUntouched`, `Fences.FenceFreeOnlyTrims`, `Fences.JsonBlockUnwrapped`, `Fences.RemoveAllFenceFree` and `Fences.StripFencesFenceFree`.
- `Nutrients.PerGram` (app.py:116-124): by `Nutrients.PerGramShape`, `Nutrients.PerGramWhole`, `Nutrients.ThirtyOneGrams` and `Nutrients.ZeroGrams`.
- `Nutrients.TwoPlaces` (the `:.2f` of app.py:122): by `Nutrients.TwoPlacesReadsBack`.
- `Nutrients.ConvertFood` and `Nutrients.ConvertFoodsValue` (app.py:114-117): by `Nutrients.ConvertFoodObject`, `Nutrients.ConvertList`, `Nutrients.OddShapesFail` and `Nutrients.WellShapedReplyConverts`.
- `Normalizer.IsImageType` (static/script.js:30, 40): by the type-gate clauses of `Workflow.Step`.

## Left out

- DOM handles, CSS classes (`glow`, `fade-in`), the dragover/dragleave highlight, the HTML markup, and `alert` as a dialog. Alerts appear only as an effect carrying their text.
- FileReader, image decoding, canvas drawing, `toDataURL` and `toBlob` encoding at quality 0.9. These are browser APIs; only their completions are modelled, as events. The preview image's source is not tracked. A failed decode simply never produces a blob event.
- The artifact carries no `lastModified` timestamp: `Date.now()` is a clock reading, and no property depends on it.
- `toBlob` handing over `null`: the page still stores a file, and the model stores an artifact either way, without bytes.
- Normalizer.TargetSize: states the exact floor of height·1024/width. The browser computes `(1024 / width) * height` in doubles, which can land one pixel lower when the exact quotient is a whole number.
- Results.Render: the client's `Reply` holds only a list of foods, each with five string fields. The server can answer 200 with other shapes, and their rendering is not modelled. A non-empty string under "foods" makes `forEach` throw after the results section is already shown, so the catch leaves results, preview and the error banner all visible. An object under "foods" renders no cards. A missing field renders as "undefined", and a non-string nutrient value is shown as it came.
- `fetch`, `response.json()`, and reply bodies that are not objects. The response is modelled as an already-parsed `Reply`, and a thrown fetch or parse error is an event carrying its message.
- `window.location.reload` is modelled only as a return to the initial state.
- The Gemini client, its prompt, `json.loads` and the text of `str(e)`. These are foreign calls and appear as function parameters.
- Flask routing, CORS, the 16 MB `MAX_CONTENT_LENGTH` limit, and environment configuration.
- Pillow `thumbnail` and `save`: the shrunk image's dimensions and bytes are not modelled, only the decision.
- Nutrients.PerGramWhole: exact output is stated only for whole numbers below 10^15. Other values go through the `fmt` parameter, because `%.2f` of a binary double (for example "1.5g" giving "0.01g") is not modelled.
- Nutrients.FirstNumber: `\d` in a Python text pattern also matches non-ASCII decimal digits, and `float()` accepts them. The model treats only '0' to '9' as digits.
- Python `%.2f` and `float()` forms beyond plain decimals (signs, exponents, underscores) are not needed for the matched text, so they are not modelled.

=== FILE: fences.dfy ===
/** The clean-up app.py applies to the model's reply text before parsing it as JSON:
    strip the text, delete every "```json" with the whitespace after it, then every
    "```" with the whitespace after it. */
module Fences {
  import opened Text

  const JsonFence := "```json"
  const Fence := "```"

  /** `re.sub(tag + r'\s*', '', s)`: scanning left to right, each occurrence of `tag`
      that begins where no earlier match covers is deleted together with the
      whitespace run following it. */
  function RemoveAll(s: string, tag: string): string
    requires |tag| > 0
    decreases |s|
  {
    if |s| == 0 then ""
    else if StartsWith(s, tag) then RemoveAll(TrimLeft(s[|tag|..]), tag)
    else [s[0]] + RemoveAll(s[1..], tag)
  }

  /** The reply text after the clean-up. */
  function StripFences(s: string): string {
    RemoveAll(RemoveAll(Trim(s), JsonFence), Fence)
  }

  predicate NoBacktick(s: string) {
    forall i :: 0 <= i < |s| ==> s[i] != '`'
  }

  /** A text with no fence left in it. */
  predicate NoFence(s: string) {
    !Contains(s, Fence)
  }

  /** Text without a backtick passes through the scan untouched. */
  lemma {:induction false} RemoveAllSkipsPlain(x: string, y: string, tag: string)
    requires |tag| > 0 && tag[0] == '`' && NoBacktick(x)
    ensures RemoveAll(x + y, tag) == x + RemoveAll(y, tag)
    decreases |x|
  {
    if |x| > 0 {
      assert (x + y)[0] == x[0] && (x + y)[1..] == x[1..] + y;
      RemoveAllSkipsPlain(x[1..], y, tag);
    } else {
      assert x + y == y;
    }
  }

  /** Text in which `tag` does not occur passes through the scan untouched: lone
      backticks, and whitespace that follows them, are kept. */
  lemma {:induction false} TagFreeUntouched(s: string, tag: string)
    requires |tag| > 0 && !Contains(s, tag)
    ensures RemoveAll(s, tag) == s
    decreases |s|
  {
    if |s| > 0 {
      assert !StartsWith(s, tag) by {
        if StartsWith(s, tag) {
          assert OccursAt(s, tag, 0);
        }
      }
      assert !Contains(s[1..], tag) by {
        if Contains(s[1..], tag) {
          var i: nat :| i <= |s[1..]| && OccursAt(s[1..], tag, i);
          assert s[1..][i..i + |tag|] == s[i + 1..i + 1 + |tag|];
          assert OccursAt(s, tag, i + 1);
        }
      }
      TagFreeUntouched(s[1..], tag);
      assert s == [s[0]] + s[1..];
    }
  }

  /** Text without "```" passes through the plain-fence pass unchanged. */
  lemma FenceFreeUntouched(s: string)
    requires NoFence(s)
    ensures RemoveAll(s, Fence) == s
  {
    TagFreeUntouched(s, Fence);
  }

  /** A reply whose stripped text holds no fence is only stripped: no "```json" can occur
      in it either, and both passes leave it alone. */
  lemma FenceFreeOnlyTrims(s: string)
    requires NoFence(Trim(s))
    ensures StripFences(s) == Trim(s)
  {
    var t := Trim(s);
    assert !Contains(t, JsonFence) by {
      if Contains(t, JsonFence) {
        var i: nat :| i <= |t| && OccursAt(t, JsonFence, i);
        assert t[i..i + 3] == t[i..i + 7][..3];
        assert OccursAt(t, Fence, i);
      }
    }
    TagFreeUntouched(t, JsonFence);
    TagFreeUntouched(t, Fence);
  }

  /** A reply without any backtick is only stripped. */
  lemma NoBacktickOnlyTrims(s: string)
    requires NoBacktick(s)
    ensures StripFences(s) == Trim(s)
  {
    var t := Trim(s);
    TrimShape(s);
    assert NoBacktick(t);
    RemoveAllSkipsPlain(t, "", JsonFence);
    assert t + "" == t;
    RemoveAllSkipsPlain(t, "", Fence);
  }

  lemma TrimLeftAppend(x: string, y: string)
    requires |y| > 0 && !IsSpace(y[0])
    ensures TrimLeft(x + y) == TrimLeft(x) + y
    decreases |x|
  {
    if |x| > 0 {
      assert (x + y)[0] == x[0] && (x + y)[1..] == x[1..] + y;
      TrimLeftAppend(x[1..], y);
    } else {
      assert x + y == y;
    }
  }

  /** A lone closing fence survives the json-tagged pass and is deleted by the plain one. */
  lemma ClosingFence()
    ensures RemoveAll(Fence, JsonFence) == Fence
    ensures RemoveAll(Fence, Fence) == ""
  {
    assert !StartsWith(Fence, JsonFence);
    assert !StartsWith(Fence[1..], JsonFence);
    assert !StartsWith(Fence[1..][1..], JsonFence);
    assert Fence[1..][1..][1..] == "";
    assert StartsWith(Fence, Fence) && Fence[|Fence|..] == "";
  }

  /** A match is deleted with the whitespace after it and the scan goes on behind it. */
  lemma RemoveAllAtTag(s: string, tag: string)
    requires |tag| > 0 && StartsWith(s, tag)
    ensures RemoveAll(s, tag) == RemoveAll(TrimLeft(s[|tag|..]), tag)
  {
  }

  /** Behind the opening fence, the whitespace run goes and the closing fence stays. */
  lemma AfterOpening(nl: char, body: string, closing: string)
    requires IsSpace(nl) && |closing| > 0 && !IsSpace(closing[0])
    ensures TrimLeft([nl] + body + [nl] + closing) == TrimLeft(body + [nl]) + closing
  {
    var inner := [nl] + body + [nl];
    TrimLeftAppend(inner, closing);
    assert inner[1..] == body + [nl];
  }

  lemma OpeningFenceMatched(inner: string)
    ensures RemoveAll(JsonFence + inner, JsonFence) == RemoveAll(TrimLeft(inner), JsonFence)
  {
    var s := JsonFence + inner;
    assert StartsWith(s, JsonFence);
    assert s[|JsonFence|..] == inner;
    RemoveAllAtTag(s, JsonFence);
  }

  /** A text that begins and ends with a backtick is left alone by `strip()`. */
  lemma TrimKeepsFenced(s: string)
    requires |s| > 0 && s[0] == '`' && s[|s| - 1] == '`'
    ensures Trim(s) == s
  {
  }

  /** A JSON body wrapped in a json-tagged fence block comes out unwrapped: the opening
      fence goes together with the whitespace after it, the closing fence goes, and the
      line break before the closing fence stays. */
  lemma JsonBlockUnwrapped(body: string)
    requires NoBacktick(body)
    ensures StripFences("```json\n" + body + "\n```") == TrimLeft(body + "\n")
  {
    var nl := '\n';
    var s := "```json\n" + body + "\n```";
    var inner := [nl] + body + [nl] + Fence;
    var p := TrimLeft(body + [nl]);
    assert s == JsonFence + inner;
    TrimLeftShape(body + [nl]);
    assert NoBacktick(p);
    calc {
      StripFences(s);
      RemoveAll(RemoveAll(Trim(s), JsonFence), Fence);
      { TrimKeepsFenced(s); }
      RemoveAll(RemoveAll(JsonFence + inner, JsonFence), Fence);
      { OpeningFenceMatched(inner); }
      RemoveAll(RemoveAll(TrimLeft(inner), JsonFence), Fence);
      { AfterOpening(nl, body, Fence); }
      RemoveAll(RemoveAll(p + Fence, JsonFence), Fence);
      { RemoveAllSkipsPlain(p, Fence, JsonFence); ClosingFence(); }
      RemoveAll(p + Fence, Fence);
      { RemoveAllSkipsPlain(p, Fence, Fence); ClosingFence(); assert p + "" == p; }
      p;
    }
    assert body + [nl] == body + "\n";
  }

  /** The scan keeps the first character of a text that does not begin with a backtick. */
  lemma HeadKept(t: string)
    requires |t| > 0 && t[0] != '`'
    ensures |RemoveAll(t, Fence)| > 0 && RemoveAll(t, Fence)[0] == t[0]
  {
  }

  /** A fence in `[c] + t` that does not begin at `c` is a fence of `t`. */
  lemma ConsNoFence(c: char, t: string)
    requires NoFence(t) && !OccursAt([c] + t, Fence, 0)
    ensures NoFence([c] + t)
  {
    var r := [c] + t;
    forall i: nat | OccursAt(r, Fence, i)
      ensures false
    {
      assert r[i..i + |Fence|] == t[i - 1..i - 1 + |Fence|];
      assert OccursAt(t, Fence, i - 1);
    }
  }

  /** No fence survives the second pass, whatever the text: a kept backtick is always
      one of at most two left over at the end of a run of backticks. */
  lemma {:induction false} RemoveAllFenceFree(s: string)
    ensures NoFence(RemoveAll(s, Fence))
    decreases |s|
  {
    if |s| == 0 {
    } else if StartsWith(s, Fence) {
      RemoveAllFenceFree(TrimLeft(s[|Fence|..]));
    } else {
      var rest := RemoveAll(s[1..], Fence);
      var r := [s[0]] + rest;
      RemoveAllFenceFree(s[1..]);
      assert |Fence| == 3 && Fence[0] == '`' && Fence[1] == '`' && Fence[2] == '`';
      if s[0] == '`' && |s| >= 2 {
        if s[1] != '`' {
          HeadKept(s[1..]);
          assert r[1] != '`';
        } else if |s| >= 3 {
          assert s[2] != '`' by { assert s[..3] != Fence; }
          assert !StartsWith(s[1..], Fence);
          assert rest == [s[1]] + RemoveAll(s[2..], Fence);
          HeadKept(s[2..]);
          assert r[2] != '`';
        } else {
          assert rest == [s[1]] + RemoveAll(s[2..], Fence);
          assert s[2..] == [];
          assert |r| == 2;
        }
      } else if s[0] == '`' {
        assert s[1..] == [];
        assert |r| == 1;
      }
      assert !OccursAt(r, Fence, 0);
      ConsNoFence(s[0], rest);
    }
  }

  /** After the clean-up no "```" fence, and so no "```json" fence, is left. */
  lemma StripFencesFenceFree(s: string)
    ensures NoFence(StripFences(s))
  {
    RemoveAllFenceFree(RemoveAll(Trim(s), JsonFence));
  }
}

=== FILE: normalizer.dfy ===
/** The browser side of image intake (static/script.js): which files are let in,
    and the size of the canvas an accepted image is redrawn on before upload. */
module Normalizer {
  import opened Text

  /** Widest image the client uploads, in pixels. */
  const MaxWidth: nat := 1024

  /** Media type of every re-encoded upload. */
  const OutputType := "image/jpeg"

  /** A file as the browser hands it over: its name and declared media type. */
  datatype SourceFile = SourceFile(name: string, mimeType: string)

  /** Pixel dimensions. */
  datatype Size = Size(width: nat, height: nat)

  /** The re-encoded upload: a file named after its source, always a JPEG. */
  datatype Artifact = Artifact(name: string, mimeType: string, size: Size)

  /** The type gate of both the drop and the picker handler. */
  predicate IsImageType(mimeType: string) {
    StartsWith(mimeType, "image/")
  }

  /** The canvas size for a decoded image. An image wider than `MaxWidth` is narrowed
      to exactly `MaxWidth` and its height is scaled by the same factor; the canvas
      keeps the integer part of the scaled height. Anything else is kept as it is. */
  function TargetSize(src: Size): (r: Size)
    ensures r.width <= MaxWidth
    ensures src.width <= MaxWidth ==> r == src
    ensures src.width > MaxWidth ==>
              && r.width == MaxWidth
              && r.height * src.width <= src.height * MaxWidth < (r.height + 1) * src.width
  {
    if src.width > MaxWidth then Size(MaxWidth, src.height * MaxWidth / src.width) else src
  }

  /** The artifact the `toBlob` callback stores for a source file whose image decoded
      to `decoded`. */
  function Normalize(file: SourceFile, decoded: Size): (a: Artifact)
    ensures a.name == file.name && a.mimeType == OutputType
    ensures a.size == TargetSize(decoded)
    ensures a.size.width <= MaxWidth
    ensures a.size.width <= decoded.width && a.size.height <= decoded.height
  {
    NoUpscaling(decoded);
    Artifact(file.name, OutputType, TargetSize(decoded))
  }

  /** The canvas is never larger than the decoded image in either direction. */
  lemma NoUpscaling(src: Size)
    ensures TargetSize(src).width <= src.width
    ensures TargetSize(src).height <= src.height
  {
    if src.width > MaxWidth {
      var r := TargetSize(src);
      assert src.height * MaxWidth <= src.height * src.width;
      assert r.height * src.width <= src.height * src.width;
    }
  }

  /** The aspect ratio survives scaling up to one pixel of height: the scaled height
      falls short of the exact `height * width' / width` by less than one. */
  lemma AspectWithinOnePixel(src: Size)
    requires src.width > 0
    ensures var r := TargetSize(src);
            0 <= src.height * r.width - r.height * src.width < src.width
  {
  }

  /** Redrawing an already normalized image does not change its size again. */
  lemma TargetSizeIdempotent(src: Size)
    ensures TargetSize(TargetSize(src)) == TargetSize(src)
  {
  }

  /** A 2000 x 1000 photograph becomes 1024 x 512. */
  lemma WideExample()
    ensures TargetSize(Size(2000, 1000)) == Size(1024, 512)
  {
  }
}

=== FILE: nutrients.dfy ===
/** The per-gram conversion app.py applies to the parsed model reply: under the
    `foods` key, each of the four nutrient strings of each food is replaced by the
    first number in it divided by 100, written with two decimals and a "g". The walk
    uses Python's `in`, iteration and indexing, so replies of an unexpected shape fail
    with a TypeError; those failures are modelled too. */
module Nutrients {
  import opened Wrappers
  import opened Text

  /** A parsed JSON value. */
  datatype Json =
    | JNull
    | JBool(b: bool)
    | JNum(n: real)
    | JStr(s: string)
    | JArr(items: seq<Json>)
    | JObj(fields: map<string, Json>)

  /** Why the walk raised a TypeError. */
  datatype TypeError =
    | NoMembership   // `x in v` where v is a number, a boolean or null
    | NotIterable    // `for x in v` where v is a number, a boolean or null
    | TextIndexed    // `v[key]` where v is a string or a list

  const FoodsKey := "foods"
  const NutrientKeys: seq<string> := ["protein", "carbs", "fat", "fiber"]
  const NotAvailable := "N/A"

  /** Below this bound an integer count of grams per 100 g survives the trip through a
      double unchanged: `n / 100` is then within 0.005 of the decimal value. */
  const ExactLimit: nat := 1_000_000_000_000_000

  /** The leftmost match of the pattern `\d+\.?\d*`: where it starts, and its text. */
  datatype NumberMatch = NumberMatch(start: nat, text: string)

  /** A plain decimal literal: digits, optionally a point and more digits. */
  datatype Decimal = Decimal(whole: string, frac: string)

  /** The end of the run of digits beginning at `i`. */
  function DigitRunEnd(s: string, i: nat): (j: nat)
    requires i <= |s|
    ensures i <= j <= |s|
    ensures forall k :: i <= k < j ==> IsDigit(s[k])
    ensures j == |s| || !IsDigit(s[j])
    decreases |s| - i
  {
    if i < |s| && IsDigit(s[i]) then DigitRunEnd(s, i + 1) else i
  }

  /** The index of the first digit at or after `i`. */
  function FirstDigitFrom(s: string, i: nat): (r: Option<nat>)
    requires i <= |s|
    ensures r.None? ==> forall k :: i <= k < |s| ==> !IsDigit(s[k])
    ensures r.Some? ==> i <= r.value < |s| && IsDigit(s[r.value])
                        && forall k :: i <= k < r.value ==> !IsDigit(s[k])
    decreases |s| - i
  {
    if i == |s| then None
    else if IsDigit(s[i]) then Some(i)
    else FirstDigitFrom(s, i + 1)
  }

  /** `s[st..e]` is the leftmost match of `\d+\.?\d*` in `s`: it starts at the first
      digit, holds only digits and at most one point, and cannot be extended, neither by
      a digit nor, while it has no point yet, by a point. */
  predicate IsLeftmostGreedy(s: string, st: nat, e: nat) {
    && st < e <= |s|
    && IsDigit(s[st])
    && (forall k :: 0 <= k < st ==> !IsDigit(s[k]))
    && (forall k :: st <= k < e ==> IsDigit(s[k]) || s[k] == '.')
    && (forall k1, k2 :: st <= k1 < k2 < e && s[k1] == '.' ==> s[k2] != '.')
    && (e < |s| ==> !IsDigit(s[e]))
    && (e < |s| && s[e] == '.' ==> '.' in s[st..e])
  }

  /** `re.search(r'(\d+\.?\d*)', s)`: the match begins at the first digit and greedily
      takes that digit run, then a point if one follows, then the digit run after it. */
  function FirstNumber(s: string): (m: Option<NumberMatch>)
    ensures m.None? <==> !HasDigit(s)
    ensures m.Some? ==>
              && m.value.start + |m.value.text| <= |s|
              && s[m.value.start..m.value.start + |m.value.text|] == m.value.text
              && IsLeftmostGreedy(s, m.value.start, m.value.start + |m.value.text|)
  {
    match FirstDigitFrom(s, 0)
    case None => None
    case Some(i) =>
      var j := DigitRunEnd(s, i);
      var k := if j < |s| && s[j] == '.' then DigitRunEnd(s, j + 1) else j;
      Some(NumberMatch(i, s[i..k]))
  }

  /** The leftmost greedy match is unique and is the one `FirstNumber` returns. */
  lemma FirstNumberIsTheMatch(s: string, st: nat, e: nat)
    requires IsLeftmostGreedy(s, st, e)
    ensures FirstNumber(s) == Some(NumberMatch(st, s[st..e]))
  {
  }

  /** The index of the first point in `t`, if any. */
  function PointIndex(t: string): (r: Option<nat>)
    ensures r.None? ==> forall k :: 0 <= k < |t| ==> t[k] != '.'
    ensures r.Some? ==> r.value < |t| && t[r.value] == '.' && forall k :: 0 <= k < r.value ==> t[k] != '.'
  {
    if |t| == 0 then None
    else if t[0] == '.' then Some(0)
    else match PointIndex(t[1..])
      case None => None
      case Some(i) => Some(i + 1)
  }

  /** Reads `t` as a plain decimal literal, the forms `float()` accepts without sign,
      exponent, underscores or surrounding blanks: "31", "3.6", "31.", ".5". */
  function ParseDecimal(t: string): (r: Option<Decimal>)
    ensures r.Some? ==> AllDigits(r.value.whole) && AllDigits(r.value.frac)
                        && |r.value.whole| + |r.value.frac| > 0
    ensures r.Some? ==> (t == r.value.whole && r.value.frac == "") || t == r.value.whole + "." + r.value.frac
  {
    match PointIndex(t)
    case None =>
      if |t| > 0 && AllDigits(t) then Some(Decimal(t, "")) else None
    case Some(p) =>
      var whole := t[..p];
      var frac := t[p + 1..];
      assert t == whole + "." + frac;
      if AllDigits(whole) && AllDigits(frac) && |whole| + |frac| > 0 then Some(Decimal(whole, frac)) else None
  }

  /** The decimal's value is a whole number that a double carries exactly through the
      division by 100. */
  predicate ExactInteger(d: Decimal)
    requires AllDigits(d.whole)
  {
    && (forall i :: 0 <= i < |d.frac| ==> d.frac[i] == '0')
    && DigitsValue(d.whole) < ExactLimit
  }

  /** `f"{n / 100:.2f}"` for a whole number `n` in the exact range. */
  function TwoPlaces(n: nat): string {
    ShowNat(n / 100) + "." + [DigitChar(n / 10 % 10), DigitChar(n % 10)]
  }

  /** The new text of one nutrient value. `fmt` stands for `f"{v / 100:.2f}"` of the
      double `v` a non-integral (or very large) literal parses to. */
  function PerGram(s: string, fmt: Decimal -> string): string {
    match FirstNumber(s)
    case None => s
    case Some(m) =>
      match ParseDecimal(m.text)
      case None => NotAvailable
      case Some(d) => (if ExactInteger(d) then TwoPlaces(DigitsValue(d.whole)) else fmt(d)) + "g"
  }

  lemma {:induction false} PointIndexAt(t: string, p: nat)
    requires p < |t| && t[p] == '.'
    requires forall k :: 0 <= k < p ==> t[k] != '.'
    ensures PointIndex(t) == Some(p)
  {
    if p > 0 {
      PointIndexAt(t[1..], p - 1);
    }
  }

  /** The match when no point follows the first digit run: only digits. */
  lemma DigitsOnlyParse(t: string)
    requires |t| > 0 && AllDigits(t)
    ensures ParseDecimal(t) == Some(Decimal(t, ""))
  {
    assert PointIndex(t).None? by {
      if PointIndex(t).Some? {
        assert IsDigit(t[PointIndex(t).value]);
      }
    }
  }

  /** The match when a point follows the first digit run: digits, the point, digits. */
  lemma PointedParse(t: string, p: nat)
    requires 0 < p < |t| && t[p] == '.'
    requires forall k :: 0 <= k < p ==> IsDigit(t[k])
    requires forall k :: p < k < |t| ==> IsDigit(t[k])
    ensures ParseDecimal(t) == Some(Decimal(t[..p], t[p + 1..]))
  {
    PointIndexAt(t, p);
    var whole := t[..p];
    var frac := t[p + 1..];
    assert AllDigits(whole) by {
      forall k | 0 <= k < |whole| ensures IsDigit(whole[k]) { assert whole[k] == t[k]; }
    }
    assert AllDigits(frac) by {
      forall k | 0 <= k < |frac| ensures IsDigit(frac[k]) { assert frac[k] == t[p + 1 + k]; }
    }
  }

  /** The matched text is always a literal `float()` accepts, so the "N/A" fallback
      is never taken. */
  lemma MatchIsDecimal(s: string)
    requires HasDigit(s)
    ensures ParseDecimal(FirstNumber(s).value.text).Some?
  {
    var i := FirstDigitFrom(s, 0).value;
    var j := DigitRunEnd(s, i);
    var t := FirstNumber(s).value.text;
    assert j > i;
    if j < |s| && s[j] == '.' {
      var k := DigitRunEnd(s, j + 1);
      assert t == s[i..k];
      forall x | 0 <= x < j - i ensures IsDigit(t[x]) { assert t[x] == s[i + x]; }
      forall x | j - i < x < |t| ensures IsDigit(t[x]) { assert t[x] == s[i + x]; }
      PointedParse(t, j - i);
    } else {
      assert t == s[i..j];
      forall x | 0 <= x < |t| ensures IsDigit(t[x]) { assert t[x] == s[i + x]; }
      DigitsOnlyParse(t);
    }
  }

  /** A nutrient text without a digit is left as it is. One with a digit never becomes
      "N/A": its first number always parses, and the new text is that number divided by
      100 with two decimals, followed by "g". */
  lemma PerGramShape(s: string, fmt: Decimal -> string)
    ensures !HasDigit(s) ==> PerGram(s, fmt) == s
    ensures HasDigit(s) ==>
              var d := ParseDecimal(FirstNumber(s).value.text);
              var r := PerGram(s, fmt);
              && d.Some?
              && r == (if ExactInteger(d.value) then TwoPlaces(DigitsValue(d.value.whole)) else fmt(d.value)) + "g"
              && r != NotAvailable
  {
    if HasDigit(s) {
      MatchIsDecimal(s);
      var m := FirstNumber(s).value;
      var d := ParseDecimal(m.text).value;
      var num := if ExactInteger(d) then TwoPlaces(DigitsValue(d.whole)) else fmt(d);
      var r := PerGram(s, fmt);
      assert r == num + "g";
      assert r[|r| - 1] == 'g';
      assert NotAvailable[|NotAvailable| - 1] == 'A';
    }
  }

  /** When the first number is a whole count `n` (in the exact range), the new text is
      `n / 100` with two decimals and a "g". */
  lemma PerGramWhole(s: string, fmt: Decimal -> string, n: nat)
    requires FirstNumber(s).Some? && AllDigits(FirstNumber(s).value.text)
    requires DigitsValue(FirstNumber(s).value.text) == n < ExactLimit
    ensures PerGram(s, fmt) == TwoPlaces(n) + "g"
  {
    var t := FirstNumber(s).value.text;
    assert PointIndex(t).None?;
  }

  lemma TwoDigitsValue(n: nat)
    ensures DigitsValue([DigitChar(n / 10 % 10), DigitChar(n % 10)]) == n % 100
  {
    var f := [DigitChar(n / 10 % 10), DigitChar(n % 10)];
    assert f[..1] == [f[0]] && f[..1][..0] == [];
    assert DigitsValue(f[..1]) == n / 10 % 10;
    assert (n / 10 % 10) * 10 + n % 10 == n % 100;
  }

  /** `TwoPlaces(n)` reads back as a literal with exactly two decimals whose value is
      `n / 100`, with a whole part in canonical form: at least one digit and no leading
      zero. */
  lemma TwoPlacesReadsBack(n: nat)
    ensures var d := ParseDecimal(TwoPlaces(n));
            && d.Some? && |d.value.frac| == 2
            && |d.value.whole| > 0 && (|d.value.whole| > 1 ==> d.value.whole[0] != '0')
            && DigitsValue(d.value.whole) * 100 + DigitsValue(d.value.frac) == n
  {
    var w := ShowNat(n / 100);
    var f := [DigitChar(n / 10 % 10), DigitChar(n % 10)];
    var t := TwoPlaces(n);
    assert t == w + "." + f;
    forall k | 0 <= k < |w| ensures IsDigit(t[k]) { assert t[k] == w[k]; }
    forall k | |w| < k < |t| ensures IsDigit(t[k]) { assert t[k] == f[k - |w| - 1]; }
    PointedParse(t, |w|);
    assert t[..|w|] == w && t[|w| + 1..] == f;
    ShowNatRoundTrip(n / 100);
    TwoDigitsValue(n);
  }

  lemma ThirtyOneGrams(fmt: Decimal -> string)
    ensures PerGram("31g", fmt) == "0.31g"
  {
    var s := "31g";
    assert FirstDigitFrom(s, 0) == Some(0);
    assert DigitRunEnd(s, 0) == 2;
    assert FirstNumber(s).value.text == "31";
    assert DigitsValue("31") == 31;
    PerGramWhole(s, fmt, 31);
    assert ShowNat(0) == "0";
  }

  lemma ZeroGrams(fmt: Decimal -> string)
    ensures PerGram("0g", fmt) == "0.00g"
  {
    var s := "0g";
    assert FirstDigitFrom(s, 0) == Some(0);
    assert DigitRunEnd(s, 0) == 1;
    assert FirstNumber(s).value.text == "0";
    PerGramWhole(s, fmt, 0);
    assert ShowNat(0) == "0";
  }

  /** Convert one key of a food object, when present with a string value. */
  function ConvertKey(m: map<string, Json>, key: string, fmt: Decimal -> string): map<string, Json> {
    if key in m && m[key].JStr? then m[key := JStr(PerGram(m[key].s, fmt))] else m
  }

  /** The inner loop over the nutrient names, in order. */
  function ConvertKeys(m: map<string, Json>, keys: seq<string>, fmt: Decimal -> string): map<string, Json>
    decreases |keys|
  {
    if |keys| == 0 then m else ConvertKeys(ConvertKey(m, keys[0], fmt), keys[1..], fmt)
  }

  /** The value a key holds after conversion, key by key. */
  function ConvertedValue(v: Json, convert: bool, fmt: Decimal -> string): Json {
    if convert && v.JStr? then JStr(PerGram(v.s, fmt)) else v
  }

  predicate Distinct(keys: seq<string>) {
    forall i, j :: 0 <= i < j < |keys| ==> keys[i] != keys[j]
  }

  /** The loop over distinct names touches each listed key holding a string once, and
      nothing else: same keys, every other value as it was. */
  lemma {:induction false} ConvertKeysPointwise(m: map<string, Json>, keys: seq<string>, fmt: Decimal -> string)
    requires Distinct(keys)
    ensures ConvertKeys(m, keys, fmt) == map k | k in m :: ConvertedValue(m[k], k in keys, fmt)
    decreases |keys|
  {
    if |keys| > 0 {
      var m' := ConvertKey(m, keys[0], fmt);
      ConvertKeysPointwise(m', keys[1..], fmt);
      forall k | k in m
        ensures ConvertedValue(m'[k], k in keys[1..], fmt) == ConvertedValue(m[k], k in keys, fmt)
      {
        if k == keys[0] {
          assert k !in keys[1..] by {
            forall j | 0 <= j < |keys[1..]| ensures keys[1..][j] != k {
              assert keys[1..][j] == keys[j + 1];
            }
          }
        }
      }
      assert m'.Keys == m.Keys;
    }
  }

  /** The conversion of one element of the foods list. */
  function ConvertFood(food: Json, fmt: Decimal -> string): Result<Json, TypeError> {
    match food
    case JObj(m) => Success(JObj(ConvertKeys(m, NutrientKeys, fmt)))
    case JStr(t) =>
      if exists i :: 0 <= i < |NutrientKeys| && Contains(t, NutrientKeys[i]) then Failure(TextIndexed)
      else Success(food)
    case JArr(xs) =>
      if exists i :: 0 <= i < |NutrientKeys| && JStr(NutrientKeys[i]) in xs then Failure(TextIndexed)
      else Success(food)
    case _ => Failure(NoMembership)
  }

  /** A food object keeps its keys; its four nutrients holding strings are converted and
      every other entry, `name` included, is kept. */
  lemma ConvertFoodObject(m: map<string, Json>, fmt: Decimal -> string)
    ensures ConvertFood(JObj(m), fmt).Success?
    ensures var r := ConvertFood(JObj(m), fmt).value;
            && r.JObj? && r.fields.Keys == m.Keys
            && forall k :: k in m ==> r.fields[k] == ConvertedValue(m[k], k in NutrientKeys, fmt)
  {
    ConvertKeysPointwise(m, NutrientKeys, fmt);
  }

  /** The loop over the foods list; the first failing element stops it. */
  function ConvertList(items: seq<Json>, fmt: Decimal -> string): (r: Result<seq<Json>, TypeError>)
    ensures r.Success? <==> forall i :: 0 <= i < |items| ==> ConvertFood(items[i], fmt).Success?
    ensures r.Success? ==> |r.value| == |items|
                           && forall i :: 0 <= i < |items| ==> r.value[i] == ConvertFood(items[i], fmt).value
  {
    if |items| == 0 then Success([])
    else match ConvertFood(items[0], fmt)
      case Failure(e) => Failure(e)
      case Success(v) =>
        match ConvertList(items[1..], fmt)
        case Failure(e) => Failure(e)
        case Success(vs) =>
          assert forall i :: 1 <= i < |items| ==> items[i] == items[1..][i - 1];
          Success([v] + vs)
  }

  /** `for food in data['foods']` over whatever the key holds. Iterating a string
      yields one-character strings, none of which contains a nutrient name; iterating
      an object yields its keys. */
  function ConvertFoodsValue(v: Json, fmt: Decimal -> string): Result<Json, TypeError> {
    match v
    case JArr(items) =>
      (match ConvertList(items, fmt)
       case Success(vs) => Success(JArr(vs))
       case Failure(e) => Failure(e))
    case JObj(m) =>
      if exists k, i :: k in m && 0 <= i < |NutrientKeys| && Contains(k, NutrientKeys[i]) then Failure(TextIndexed)
      else Success(v)
    case JStr(_) => Success(v)
    case _ => Failure(NotIterable)
  }

  /** The whole conversion of a parsed reply (`if 'foods' in data: ...`). */
  function ConvertReply(data: Json, fmt: Decimal -> string): (r: Result<Json, TypeError>)
    ensures data.JObj? && FoodsKey !in data.fields ==> r == Success(data)
    ensures r.Success? && data.JObj? ==> r.value.JObj? && r.value.fields.Keys == data.fields.Keys
    ensures r.Success? && data.JObj? ==>
              forall k :: k in data.fields && k != FoodsKey ==> r.value.fields[k] == data.fields[k]
  {
    match data
    case JObj(m) =>
      if FoodsKey in m then
        match ConvertFoodsValue(m[FoodsKey], fmt)
        case Success(v) => Success(JObj(m[FoodsKey := v]))
        case Failure(e) => Failure(e)
      else Success(data)
    case JArr(xs) => if JStr(FoodsKey) in xs then Failure(TextIndexed) else Success(data)
    case JStr(t) => if Contains(t, FoodsKey) then Failure(TextIndexed) else Success(data)
    case _ => Failure(NoMembership)
  }

  /** Replies of an unexpected shape end in a TypeError: a bare number, boolean or null
      as the reply, a number, boolean or null under `foods`, or one as an element of the
      foods list. */
  lemma OddShapesFail(data: Json, fmt: Decimal -> string)
    ensures (data.JNull? || data.JBool? || data.JNum?) ==> ConvertReply(data, fmt) == Failure(NoMembership)
    ensures data.JObj? && FoodsKey in data.fields ==>
              var v := data.fields[FoodsKey];
              && ((v.JNull? || v.JBool? || v.JNum?) ==> ConvertReply(data, fmt) == Failure(NotIterable))
              && (v.JArr? && (exists i :: 0 <= i < |v.items| && (v.items[i].JNull? || v.items[i].JBool? || v.items[i].JNum?))
                  ==> ConvertReply(data, fmt).Failure?)
  {
  }

  /** A reply of the shape the prompt asks for, an object whose `foods` is a list of
      objects, always converts: the list keeps its length and order, each food keeps its
      keys, and only nutrient strings change. */
  lemma WellShapedReplyConverts(m: map<string, Json>, foods: seq<Json>, fmt: Decimal -> string)
    requires FoodsKey in m && m[FoodsKey] == JArr(foods)
    requires forall i :: 0 <= i < |foods| ==> foods[i].JObj?
    ensures ConvertReply(JObj(m), fmt).Success?
    ensures var r := ConvertReply(JObj(m), fmt).value;
            && r.JObj? && FoodsKey in r.fields && r.fields[FoodsKey].JArr?
            && |r.fields[FoodsKey].items| == |foods|
            && forall i :: 0 <= i < |foods| ==>
                 var before := foods[i].fields;
                 var after := r.fields[FoodsKey].items[i];
                 && after.JObj? && after.fields.Keys == before.Keys
                 && forall k :: k in before ==> after.fields[k] == ConvertedValue(before[k], k in NutrientKeys, fmt)
  {
    forall i | 0 <= i < |foods|
      ensures ConvertFood(foods[i], fmt).Success?
    {
      ConvertFoodObject(foods[i].fields, fmt);
    }
    var r := ConvertReply(JObj(m), fmt).value;
    forall i | 0 <= i < |foods|
      ensures var before := foods[i].fields;
              var after := r.fields[FoodsKey].items[i];
              && after.JObj? && after.fields.Keys == before.Keys
              && forall k :: k in before ==> after.fields[k] == ConvertedValue(before[k], k in NutrientKeys, fmt)
    {
      ConvertFoodObject(foods[i].fields, fmt);
    }
  }
}

=== FILE: results.dfy ===
/** `displayResults` of static/script.js as a pure map from the parsed reply body to
    a view model: the blocks the results section shows, top to bottom. */
module Results {
  import opened Wrappers

  /** One food record of a reply; every field is shown as it arrives. */
  datatype Food = Food(name: string, protein: string, carbs: string, fat: string, fiber: string)

  /** The parsed JSON body of an analysis reply, reduced to the keys the client reads. */
  datatype Reply = Reply(message: Option<string>, foods: Option<seq<Food>>, error: Option<string>)

  /** A block of the results section. */
  datatype Block =
    | Advisory(text: string)
    | Heading(title: string)
    | Card(title: string, protein: string, carbs: string, fat: string, fiber: string)
    | AnotherButton(caption: string)

  type View = seq<Block>

  const HeadingTitle := "Nutritional Info Per Gram"
  const AnotherLabel := "Analyze Another Image"

  /** JavaScript truthiness of an optional string: present and non-empty. */
  predicate Truthy(s: Option<string>) {
    s.Some? && s.value != ""
  }

  /** The foods the reply lists; a missing list reads as an empty one. */
  function FoodList(d: Reply): seq<Food> {
    d.foods.GetOr([])
  }

  function CardOf(f: Food): Block {
    Card(f.name, f.protein, f.carbs, f.fat, f.fiber)
  }

  /** One card per food, in the order of the list. */
  function Cards(fs: seq<Food>): (v: View)
    ensures |v| == |fs|
    ensures forall i :: 0 <= i < |v| ==> v[i] == CardOf(fs[i])
  {
    if |fs| == 0 then [] else [CardOf(fs[0])] + Cards(fs[1..])
  }

  /** The view of a reply. A truthy message wins and is shown alone above the button,
      whatever foods come with it; otherwise the heading, a card per food and the button. */
  function Render(d: Reply): (v: View)
    ensures |v| >= 2 && v[|v| - 1] == AnotherButton(AnotherLabel)
    ensures Truthy(d.message) ==> v == [Advisory(d.message.value), AnotherButton(AnotherLabel)]
    ensures !Truthy(d.message) ==>
              && v[0] == Heading(HeadingTitle)
              && |v| == |FoodList(d)| + 2
              && forall i :: 0 <= i < |FoodList(d)| ==> v[i + 1] == CardOf(FoodList(d)[i])
  {
    if Truthy(d.message) then
      [Advisory(d.message.value), AnotherButton(AnotherLabel)]
    else
      [Heading(HeadingTitle)] + Cards(FoodList(d)) + [AnotherButton(AnotherLabel)]
  }

  /** The food records a view displays, read back from its cards. */
  function ShownFoods(v: View): seq<Food> {
    if |v| == 0 then []
    else match v[0]
      case Card(n, p, c, f, b) => [Food(n, p, c, f, b)] + ShownFoods(v[1..])
      case _ => ShownFoods(v[1..])
  }

  lemma {:induction false} ShownFoodsAppend(a: View, b: View)
    ensures ShownFoods(a + b) == ShownFoods(a) + ShownFoods(b)
  {
    if |a| > 0 {
      assert (a + b)[0] == a[0];
      assert (a + b)[1..] == a[1..] + b;
      ShownFoodsAppend(a[1..], b);
    } else {
      assert a + b == b;
    }
  }

  lemma {:induction false} ShownFoodsOfCards(fs: seq<Food>)
    ensures ShownFoods(Cards(fs)) == fs
  {
    if |fs| > 0 {
      assert Cards(fs)[1..] == Cards(fs[1..]);
      ShownFoodsOfCards(fs[1..]);
    }
  }

  /** Reading the cards back from a rendered view gives exactly the reply's food list,
      same records in the same order, unless a message took precedence, in which case
      no food is shown. */
  lemma {:induction false} RenderShowsFoodsInOrder(d: Reply)
    ensures ShownFoods(Render(d)) == (if Truthy(d.message) then [] else FoodList(d))
  {
    if !Truthy(d.message) {
      var fs := FoodList(d);
      ShownFoodsAppend([Heading(HeadingTitle)] + Cards(fs), [AnotherButton(AnotherLabel)]);
      ShownFoodsAppend([Heading(HeadingTitle)], Cards(fs));
      ShownFoodsOfCards(fs);
    } else {
      var v := Render(d);
      assert ShownFoods(v[1..][1..]) == [];
      assert ShownFoods(v[1..]) == [];
    }
  }

  /** A reply with one food renders exactly one card with that food's values. */
  lemma AppleExample()
    ensures var apple := Food("Apple", "0.3g", "14g", "0.2g", "2.4g");
            Render(Reply(None, Some([apple]), None))
            == [Heading(HeadingTitle), Card("Apple", "0.3g", "14g", "0.2g", "2.4g"), AnotherButton(AnotherLabel)]
  {
  }
}

=== FILE: server.dfy ===
/** The analysis endpoint of app.py: request validation, the decision whether the
    upload is shrunk before it goes to the model, and the post-processing of the
    model's reply. The model call and the JSON parser are parameters. */
module Server {
  import opened Wrappers
  import opened Normalizer
  import opened Fences
  import opened Nutrients

  /** The longest side the server lets through unshrunk, in pixels. */
  const MaxImageDimension: nat := 1024

  const ImagePart := "image"
  const NoImageProvided := "No image file provided."
  const NoImageSelected := "No image file selected."
  const ParseFailed := "Failed to parse the response from the AI model."
  const UnexpectedPrefix := "An unexpected error occurred: "

  /** A multipart file part as the server sees it. `decoded` is what the imaging
      library reads from the bytes (`None` when it cannot open them) and `jpegWritable`
      whether shrinking it and saving it as a JPEG succeeds. */
  datatype Upload = Upload(filename: string, mimetype: string, decoded: Option<Size>, jpegWritable: bool)

  /** What is sent to the model: the uploaded stream as it came, or a shrunk JPEG copy. */
  datatype Payload = Payload(shrunk: bool, mimeType: string)

  /** Why the handler fell into its catch-all. */
  datatype Cause = ModelCallFailed | WalkFailed(error: TypeError)

  datatype Response =
    | Analysed(data: Json)          // 200, the converted reply
    | BadRequest(message: string)   // 400
    | Unparsable(raw: string)       // 500, the cleaned text that did not parse
    | Unexpected(cause: Cause)      // 500

  predicate Oversized(s: Size) {
    s.width > MaxImageDimension || s.height > MaxImageDimension
  }

  /** `resize_image`: an image larger than the bound on either side is shrunk and sent as
      a JPEG; anything else, including every failure to open or save it, goes out as
      uploaded with its own media type. */
  function ResizeForModel(u: Upload): (p: Payload)
    ensures !p.shrunk ==> p.mimeType == u.mimetype
    ensures p.shrunk ==> p.mimeType == OutputType && u.decoded.Some? && Oversized(u.decoded.value)
  {
    match u.decoded
    case None => Payload(false, u.mimetype)
    case Some(size) =>
      if Oversized(size) && u.jpegWritable then Payload(true, OutputType) else Payload(false, u.mimetype)
  }

  /** The upload is shrunk exactly when it opens, is too large and can be written as JPEG. */
  lemma ShrunkExactly(u: Upload)
    ensures ResizeForModel(u).shrunk <==> u.decoded.Some? && Oversized(u.decoded.value) && u.jpegWritable
  {
  }

  /** The checks at the top of the handler. */
  function Validate(files: map<string, Upload>): (r: Result<Upload, string>)
    ensures r.Success? <==> ImagePart in files && files[ImagePart].filename != ""
    ensures r.Success? ==> r.value == files[ImagePart]
    ensures ImagePart !in files ==> r == Failure(NoImageProvided)
    ensures ImagePart in files && files[ImagePart].filename == "" ==> r == Failure(NoImageSelected)
  {
    if ImagePart !in files then Failure(NoImageProvided)
    else if files[ImagePart].filename == "" then Failure(NoImageSelected)
    else Success(files[ImagePart])
  }

  /** The whole handler. `model` is the model call on the payload (`None` when it
      raises), `loads` the JSON parser (`None` when it rejects the text), `fmt` the
      two-decimal formatting of a non-integral nutrient value. */
  function Analyze(files: map<string, Upload>, model: Payload -> Option<string>,
                   loads: string -> Option<Json>, fmt: Decimal -> string): (r: Response)
    ensures r.BadRequest? <==> Validate(files).Failure?
    ensures r.BadRequest? ==> r.message == Validate(files).error
    ensures r.Unparsable? ==> NoFence(r.raw) && loads(r.raw).None?
    // past validation, the model's text decides: no text is an unexpected error, text that
    // does not parse once cleaned is reported as cleaned, and a parsed reply answers 200
    // exactly when the per-gram walk succeeds
    ensures Validate(files).Success? ==>
              var text := model(ResizeForModel(Validate(files).value));
              && (r == Unexpected(ModelCallFailed) <==> text.None?)
              && (r.Unparsable? <==> text.Some? && loads(StripFences(text.value)).None?)
              && (r.Unparsable? ==> r.raw == StripFences(text.value))
              && (r.Analysed? <==> text.Some? && loads(StripFences(text.value)).Some?
                                   && ConvertReply(loads(StripFences(text.value)).value, fmt).Success?)
              && (r.Analysed? ==> r.data == ConvertReply(loads(StripFences(text.value)).value, fmt).value)
  {
    match Validate(files)
    case Failure(msg) => BadRequest(msg)
    case Success(u) =>
      match model(ResizeForModel(u))
      case None => Unexpected(ModelCallFailed)
      case Some(text) =>
        var cleaned := StripFences(text);
        StripFencesFenceFree(text);
        match loads(cleaned)
        case None => Unparsable(cleaned)
        case Some(data) =>
          match ConvertReply(data, fmt)
          case Success(converted) => Analysed(converted)
          case Failure(e) => Unexpected(WalkFailed(e))
  }

  /** The status code of a response. */
  function Status(r: Response): (code: nat)
    ensures code == 200 <==> r.Analysed?
    ensures code == 400 <==> r.BadRequest?
    ensures code == 500 <==> r.Unparsable? || r.Unexpected?
  {
    match r
    case Analysed(_) => 200
    case BadRequest(_) => 400
    case _ => 500
  }

  /** The JSON body of a response; `describe` is `str(e)` of the caught exception. */
  function Body(r: Response, describe: Cause -> string): (b: Json)
    ensures !r.Analysed? ==> b.JObj? && "error" in b.fields && b.fields["error"].JStr?
    ensures r.Analysed? ==> b == r.data
    ensures r.BadRequest? ==> b.fields == map["error" := JStr(r.message)]
    ensures r.Unparsable? ==> b.fields == map["error" := JStr(ParseFailed), "raw_response" := JStr(r.raw)]
    ensures r.Unexpected? ==> b.fields == map["error" := JStr(UnexpectedPrefix + describe(r.cause))]
  {
    match r
    case Analysed(data) => data
    case BadRequest(msg) => JObj(map["error" := JStr(msg)])
    case Unparsable(raw) => JObj(map["error" := JStr(ParseFailed), "raw_response" := JStr(raw)])
    case Unexpected(c) => JObj(map["error" := JStr(UnexpectedPrefix + describe(c))])
  }

  /** A request without an image part, or with an unnamed one, is refused with 400 and
      the matching message before anything else happens. */
  lemma MissingImageRefused(files: map<string, Upload>, model: Payload -> Option<string>,
                            loads: string -> Option<Json>, fmt: Decimal -> string, describe: Cause -> string)
    requires ImagePart !in files || files[ImagePart].filename == ""
    ensures var r := Analyze(files, model, loads, fmt);
            && Status(r) == 400
            && Body(r, describe) == JObj(map["error" := JStr(if ImagePart !in files then NoImageProvided else NoImageSelected)])
  {
  }

  /** A 200 answer carries the parsed cleaned reply after the per-gram conversion. */
  lemma AnalysedIsConverted(files: map<string, Upload>, model: Payload -> Option<string>,
                            loads: string -> Option<Json>, fmt: Decimal -> string)
    requires Analyze(files, model, loads, fmt).Analysed?
    ensures var u := files[ImagePart];
            var text := model(ResizeForModel(u));
            && text.Some?
            && loads(StripFences(text.value)).Some?
            && ConvertReply(loads(StripFences(text.value)).value, fmt)
               == Success(Analyze(files, model, loads, fmt).data)
  {
  }
}

=== FILE: text.dfy ===
/** Character classes and small string facts shared by the client and the server model. */
module Text {

  /** Python's notion of whitespace (`str.isspace`), which `str.strip()` and the
      `\s` class of a `re` pattern on text both use. */
  predicate IsSpace(c: char) {
    var n := c as int;
    || 0x09 <= n <= 0x0D
    || 0x1C <= n <= 0x20
    || n == 0x85 || n == 0xA0 || n == 0x1680
    || 0x2000 <= n <= 0x200A
    || n == 0x2028 || n == 0x2029 || n == 0x202F || n == 0x205F || n == 0x3000
  }

  /** An ASCII decimal digit. */
  predicate IsDigit(c: char) {
    '0' <= c <= '9'
  }

  predicate AllDigits(s: string) {
    forall i :: 0 <= i < |s| ==> IsDigit(s[i])
  }

  predicate HasDigit(s: string) {
    exists i :: 0 <= i < |s| && IsDigit(s[i])
  }

  predicate StartsWith(s: string, prefix: string) {
    |prefix| <= |s| && s[..|prefix|] == prefix
  }

  /** `needle` occurs in `s` beginning at index `i`. */
  predicate OccursAt(s: string, needle: string, i: nat) {
    i + |needle| <= |s| && s[i..i + |needle|] == needle
  }

  /** Python's `needle in s` on two strings. */
  predicate Contains(s: string, needle: string) {
    exists i: nat | i <= |s| :: OccursAt(s, needle, i)
  }

  /** Drops the whitespace at the front: `lstrip()`, and also what a trailing `\s*`
      of a pattern consumes. */
  function TrimLeft(s: string): (r: string)
    ensures |r| <= |s|
  {
    if |s| > 0 && IsSpace(s[0]) then TrimLeft(s[1..]) else s
  }

  /** Drops the whitespace at the end: `rstrip()`. */
  function TrimRight(s: string): (r: string)
    ensures |r| <= |s|
  {
    if |s| > 0 && IsSpace(s[|s| - 1]) then TrimRight(s[..|s| - 1]) else s
  }

  /** Python's `strip()` with no argument. */
  function Trim(s: string): string {
    TrimRight(TrimLeft(s))
  }

  /** `TrimLeft` removes a run of whitespace at the front and nothing else. */
  lemma {:induction false} TrimLeftShape(s: string)
    ensures var r := TrimLeft(s);
            && r == s[|s| - |r|..]
            && (forall i :: 0 <= i < |s| - |r| ==> IsSpace(s[i]))
            && (|r| > 0 ==> !IsSpace(r[0]))
  {
    if |s| > 0 && IsSpace(s[0]) {
      TrimLeftShape(s[1..]);
    }
  }

  /** `TrimRight` removes a run of whitespace at the end and nothing else. */
  lemma {:induction false} TrimRightShape(s: string)
    ensures var r := TrimRight(s);
            && r == s[..|r|]
            && (forall i :: |r| <= i < |s| ==> IsSpace(s[i]))
            && (|r| > 0 ==> !IsSpace(r[|r| - 1]))
  {
    if |s| > 0 && IsSpace(s[|s| - 1]) {
      TrimRightShape(s[..|s| - 1]);
    }
  }

  /** `Trim` removes exactly a run of leading and a run of trailing whitespace and
      leaves a string that neither begins nor ends with whitespace. */
  lemma TrimShape(s: string)
    ensures exists i, j :: 0 <= i <= j <= |s| && Trim(s) == s[i..j]
                           && (forall k :: 0 <= k < i ==> IsSpace(s[k]))
                           && (forall k :: j <= k < |s| ==> IsSpace(s[k]))
    ensures |Trim(s)| > 0 ==> !IsSpace(Trim(s)[0]) && !IsSpace(Trim(s)[|Trim(s)| - 1])
  {
    var l := TrimLeft(s);
    TrimLeftShape(s);
    TrimRightShape(l);
    var i := |s| - |l|;
    var j := i + |TrimRight(l)|;
    assert Trim(s) == s[i..j];
    forall k | j <= k < |s| ensures IsSpace(s[k]) {
      assert s[k] == l[k - i];
    }
    assert 0 <= i <= j <= |s| && Trim(s) == s[i..j]
           && (forall k :: 0 <= k < i ==> IsSpace(s[k]))
           && (forall k :: j <= k < |s| ==> IsSpace(s[k]));
    if |Trim(s)| > 0 {
      assert Trim(s)[0] == l[0];
    }
  }

  /** The digit character for `d`. */
  function DigitChar(d: nat): (c: char)
    requires d < 10
    ensures IsDigit(c) && (c - '0') as int == d
  {
    ('0' as int + d) as char
  }

  /** Decimal notation of `n`, without leading zeros. */
  function ShowNat(n: nat): (s: string)
    ensures |s| > 0 && AllDigits(s)
    ensures |s| > 1 ==> s[0] != '0'
  {
    if n < 10 then [DigitChar(n)] else ShowNat(n / 10) + [DigitChar(n % 10)]
  }

  /** The number a string of decimal digits denotes (leading zeros allowed). */
  function DigitsValue(s: string): nat
    requires AllDigits(s)
  {
    if |s| == 0 then 0 else DigitsValue(s[..|s| - 1]) * 10 + (s[|s| - 1] - '0') as int
  }

  /** Reading back what `ShowNat` wrote gives the number again. */
  lemma {:induction false} ShowNatRoundTrip(n: nat)
    ensures DigitsValue(ShowNat(n)) == n
  {
    if n >= 10 {
      ShowNatRoundTrip(n / 10);
      var s := ShowNat(n);
      assert s[..|s| - 1] == ShowNat(n / 10);
    }
  }
}

=== FILE: workflow.dfy ===
/** The page's controller of static/script.js as a state machine. Every handler and
    every asynchronous completion (the reader's load, the `toBlob` callback, the
    answer of the analysis request) is one atomic event; events may arrive in any
    order. */
module Workflow {
  import opened Wrappers
  import opened Normalizer
  import opened Results

  /** Visibility of the five sections of the page. */
  datatype Sections = Sections(upload: bool, preview: bool, loading: bool, error: bool, results: bool)

  /** What the page remembers: the visible sections, the `resizedFile` slot, the
      error text, the results section's content and whether the file picker holds
      a selection. */
  datatype State = State(
    shown: Sections,
    resizedFile: Option<Artifact>,
    errorText: string,
    results: View,
    pickerHolds: bool)

  datatype Event =
    | Dropped(file: Option<SourceFile>)             // drop on the upload area; the first dropped file
    | Picked(file: Option<SourceFile>)              // change of the file picker; its first file
    | FileRead                                      // a FileReader started by handleFile finished
    | BlobReady(source: SourceFile, decoded: Size)  // toBlob callback for an image decoded to `decoded`
    | ClearClicked
    | AnalyzeClicked
    | Answered(ok: bool, body: Reply)               // the request came back and its body parsed
    | RequestThrew(message: string)                 // fetch or the body parse threw
    | Reloaded                                      // the results' button reloads the page

  /** What a step asks of the outside world. */
  datatype Effect =
    | Quiet
    | Alert(text: string)
    | ReadFile(file: SourceFile)                    // handleFile starts reading this file
    | Post(path: string, field: string, artifact: Artifact)

  datatype Transition = Transition(next: State, effect: Effect)

  const DropAlert := "Please drop an image file (JPG or PNG)"
  const PickAlert := "Please select an image file (JPG or PNG)"
  const NotReadyAlert := "Please wait for the image to be prepared."
  const DefaultError := "Analysis failed"
  const AnalyzePath := "/api/analyze"
  const ImageField := "image"

  /** The page as loaded: only the upload section shows, nothing is prepared. */
  function Init(): (s: State)
    ensures s.resizedFile.None? && !s.pickerHolds && ErrorOverPreview(s)
  {
    State(Sections(true, false, false, false, false), None, "", [], false)
  }

  /** The text of the error thrown for a non-success answer. */
  function FailureText(body: Reply): (t: string)
    ensures Truthy(body.error) ==> t == body.error.value
    ensures !Truthy(body.error) ==> t == DefaultError
    ensures t != ""
  {
    if Truthy(body.error) then body.error.value else DefaultError
  }

  /** The catch block: loading hides, preview and the error banner show. */
  function ShowFailure(s: State, text: string): State {
    s.(shown := s.shown.(loading := false, preview := true, error := true), errorText := text)
  }

  /** One event. */
  function Step(s: State, e: Event): (t: Transition)
    // the type gate: only an image file is read, and the gate never touches a section or the slot
    ensures t.effect.ReadFile? <==> ((e.Dropped? || e.Picked?) && e.file.Some? && IsImageType(e.file.value.mimeType))
    ensures e.Dropped? || e.Picked? ==> t.next.shown == s.shown && t.next.resizedFile == s.resizedFile
    ensures e.Dropped? ==> t.next == s
    ensures t.effect.ReadFile? ==> (e.Dropped? || e.Picked?) && e.file == Some(t.effect.file)
    // a rejected file raises its handler's alert, and the picker holds a file exactly when it was accepted
    ensures e.Dropped? && !t.effect.ReadFile? ==> t.effect == Alert(DropAlert)
    ensures e.Picked? && e.file.Some? && !IsImageType(e.file.value.mimeType) ==> t.effect == Alert(PickAlert)
    ensures e.Picked? ==> t.next.pickerHolds == t.effect.ReadFile?
    ensures e.Picked? && e.file.None? ==> t.effect == Quiet
    // a request leaves only with the stored artifact, and only then does loading show
    ensures t.effect.Post? <==> e.AnalyzeClicked? && s.resizedFile.Some?
    ensures t.effect.Post? ==> t.effect == Post(AnalyzePath, ImageField, s.resizedFile.value) && t.next.shown.loading
    ensures !s.shown.loading && t.next.shown.loading ==> t.effect.Post?
    // the slot is filled only by the toBlob callback and emptied only by clear
    ensures t.next.resizedFile != s.resizedFile ==> e.BlobReady? || e.ClearClicked? || e.Reloaded?
    ensures e.BlobReady? ==> t.next == s.(resizedFile := Some(Normalize(e.source, e.decoded)))
    ensures e.ClearClicked? || e.Reloaded? ==> t.next.resizedFile.None?
  {
    match e
    case Dropped(f) =>
      if f.Some? && IsImageType(f.value.mimeType) then Transition(s, ReadFile(f.value))
      else Transition(s, Alert(DropAlert))
    case Picked(f) =>
      if f.None? then Transition(s.(pickerHolds := false), Quiet)
      else if !IsImageType(f.value.mimeType) then Transition(s.(pickerHolds := false), Alert(PickAlert))
      else Transition(s.(pickerHolds := true), ReadFile(f.value))
    case FileRead =>
      Transition(s.(shown := s.shown.(upload := false, preview := true, error := false, results := false)), Quiet)
    case BlobReady(src, decoded) =>
      Transition(s.(resizedFile := Some(Normalize(src, decoded))), Quiet)
    case ClearClicked =>
      var sh := s.shown.(upload := true, preview := false, error := false, results := false);
      Transition(s.(resizedFile := None, pickerHolds := false, shown := sh), Quiet)
    case AnalyzeClicked =>
      if s.resizedFile.None? then Transition(s, Alert(NotReadyAlert))
      else
        var sh := s.shown.(preview := false, loading := true, error := false, results := false);
        Transition(s.(shown := sh), Post(AnalyzePath, ImageField, s.resizedFile.value))
    case Answered(ok, body) =>
      if !ok then Transition(ShowFailure(s, FailureText(body)), Quiet)
      else Transition(s.(shown := s.shown.(loading := false, results := true), results := Render(body)), Quiet)
    case RequestThrew(msg) =>
      Transition(ShowFailure(s, msg), Quiet)
    case Reloaded =>
      Transition(Init(), Quiet)
  }

  /** The state after a sequence of events. */
  function Run(s: State, es: seq<Event>): State
    decreases |es|
  {
    if |es| == 0 then s else Run(Step(s, es[0]).next, es[1..])
  }

  /** The effects a sequence of events asks for, in order. */
  function Effects(s: State, es: seq<Event>): (fx: seq<Effect>)
    ensures |fx| == |es|
    decreases |es|
  {
    if |es| == 0 then [] else [Step(s, es[0]).effect] + Effects(Step(s, es[0]).next, es[1..])
  }

  /** The error banner is an overlay: it is never visible without the preview under it. */
  predicate ErrorOverPreview(s: State) {
    s.shown.error ==> s.shown.preview
  }

  lemma StepKeepsErrorOverPreview(s: State, e: Event)
    requires ErrorOverPreview(s)
    ensures ErrorOverPreview(Step(s, e).next)
  {
  }

  /** In every state the page can reach, in whatever order the events come, the error
      banner shows only together with the preview. */
  lemma {:induction false} ErrorAlwaysOverPreview(s: State, es: seq<Event>)
    requires ErrorOverPreview(s)
    ensures ErrorOverPreview(Run(s, es))
    decreases |es|
  {
    if |es| > 0 {
      StepKeepsErrorOverPreview(s, es[0]);
      ErrorAlwaysOverPreview(Step(s, es[0]).next, es[1..]);
    }
  }

  /** Every request a run sends carries the artifact the slot holds at that point of
      the run. */
  lemma {:induction false} PostedArtifactWasStored(s: State, es: seq<Event>, k: nat)
    requires k < |es| && Effects(s, es)[k].Post?
    ensures Run(s, es[..k]).resizedFile == Some(Effects(s, es)[k].artifact)
    decreases |es|
  {
    if k > 0 {
      assert es[..k][0] == es[0] && es[..k][1..] == es[1..][..k - 1];
      PostedArtifactWasStored(Step(s, es[0]).next, es[1..], k - 1);
    }
  }

  /** Whatever the slot holds after a run was either there at the start or stored by a
      `toBlob` callback of the run, for that callback's file and decoded size. */
  lemma {:induction false} SlotOrigin(s: State, es: seq<Event>)
    requires Run(s, es).resizedFile.Some?
    ensures || Run(s, es).resizedFile == s.resizedFile
            || exists j :: 0 <= j < |es| && es[j].BlobReady?
                           && Run(s, es).resizedFile == Some(Normalize(es[j].source, es[j].decoded))
    decreases |es|
  {
    if |es| > 0 {
      var s1 := Step(s, es[0]).next;
      var a := Run(s, es).resizedFile;
      assert a == Run(s1, es[1..]).resizedFile;
      SlotOrigin(s1, es[1..]);
      if a == s1.resizedFile {
        if es[0].BlobReady? {
          assert es[0].BlobReady? && a == Some(Normalize(es[0].source, es[0].decoded));
        } else {
          assert a == s.resizedFile;
        }
      } else {
        var j :| 0 <= j < |es[1..]| && es[1..][j].BlobReady?
                 && a == Some(Normalize(es[1..][j].source, es[1..][j].decoded));
        assert es[j + 1] == es[1..][j];
      }
    }
  }

  /** Every request a run sends carries an artifact that the starting state held or that
      an earlier `toBlob` callback of the run stored. */
  lemma PostedArtifactOrigin(s: State, es: seq<Event>, k: nat)
    requires k < |es| && Effects(s, es)[k].Post?
    ensures var a := Effects(s, es)[k].artifact;
            || s.resizedFile == Some(a)
            || exists j :: 0 <= j < k && es[j].BlobReady? && a == Normalize(es[j].source, es[j].decoded)
  {
    PostedArtifactWasStored(s, es, k);
    SlotOrigin(s, es[..k]);
    var a := Effects(s, es)[k].artifact;
    if s.resizedFile != Some(a) {
      var j :| 0 <= j < k && es[..k][j].BlobReady?
               && Some(a) == Some(Normalize(es[..k][j].source, es[..k][j].decoded));
      assert es[j] == es[..k][j];
    }
  }

  /** From a page with nothing prepared, as the freshly loaded one, every request the
      page sends carries the artifact an earlier `toBlob` callback made for its file and
      decoded size. */
  lemma PostedFromEmptySlotWasNormalized(s: State, es: seq<Event>, k: nat)
    requires s.resizedFile.None?
    requires k < |es| && Effects(s, es)[k].Post?
    ensures exists j :: 0 <= j < k && es[j].BlobReady?
                        && Effects(s, es)[k].artifact == Normalize(es[j].source, es[j].decoded)
  {
    PostedArtifactOrigin(s, es, k);
  }

  /** With nothing prepared, analyze only raises the not-ready alert. */
  lemma AnalyzeNotReady(s: State)
    requires s.resizedFile.None?
    ensures Step(s, AnalyzeClicked) == Transition(s, Alert(NotReadyAlert))
  {
  }

  /** A new selection does not empty the slot: when an artifact is stored and the user
      picks another image, once the new file is read the page shows the preview and an
      analyze sends the previous artifact, as long as the new `toBlob` callback has not
      run yet. */
  lemma StaleArtifactSentAfterReselect(s: State, prev: Artifact, f: SourceFile)
    requires s.resizedFile == Some(prev) && IsImageType(f.mimeType)
    ensures var es := [Picked(Some(f)), FileRead, AnalyzeClicked];
            && Effects(s, es) == [ReadFile(f), Quiet, Post(AnalyzePath, ImageField, prev)]
            && Run(s, es[..2]).shown.preview
  {
    var es := [Picked(Some(f)), FileRead, AnalyzeClicked];
    var s1 := Step(s, es[0]).next;
    var s2 := Step(s1, es[1]).next;
    assert s2.resizedFile == Some(prev) && s2.shown.preview;
    assert Effects(s2, es[2..]) == [Post(AnalyzePath, ImageField, prev)];
    assert Effects(s1, es[1..]) == [Quiet] + Effects(s2, es[2..]);
    assert Run(s, es[..2]) == Run(s1, es[..2][1..]) == Run(s2, es[..2][1..][1..]);
  }

  /** Clear does not stop a callback that is still pending: a `toBlob` callback that
      runs after clear refills the slot while the upload section shows. */
  lemma LateBlobAfterClear(s: State, f: SourceFile, d: Size)
    ensures var r := Run(s, [ClearClicked, BlobReady(f, d)]);
            r.shown.upload && !r.shown.preview && r.resizedFile == Some(Normalize(f, d))
  {
    var es := [ClearClicked, BlobReady(f, d)];
    var s1 := Step(s, es[0]).next;
    assert Run(s, es) == Run(s1, es[1..]) == Run(Step(s1, es[1]).next, []);
  }

  /** Clear empties the slot and the picker, shows upload, hides preview, error and
      results, and leaves loading as it was. */
  lemma ClearResets(s: State)
    ensures var n := Step(s, ClearClicked).next;
            && n.resizedFile.None? && !n.pickerHolds
            && n.shown == Sections(true, false, s.shown.loading, false, false)
  {
  }

  /** A finished read hides upload, error and results and shows the preview; loading and
      the stored artifact are left as they were. */
  lemma FileReadShowsPreview(s: State)
    ensures var n := Step(s, FileRead).next;
            && n.shown == Sections(false, true, s.shown.loading, false, false)
            && n.resizedFile == s.resizedFile
  {
  }

  /** Analyze with an artifact hides preview, error and results and shows loading. */
  lemma AnalyzeShowsLoading(s: State, a: Artifact)
    requires s.resizedFile == Some(a)
    ensures Step(s, AnalyzeClicked) ==
            Transition(s.(shown := Sections(s.shown.upload, false, true, false, false)), Post(AnalyzePath, ImageField, a))
  {
  }

  /** A failed answer hides loading, shows preview and the banner, and the banner text is
      the body's error when it has one and "Analysis failed" otherwise. */
  lemma FailureShowsBanner(s: State, body: Reply)
    ensures var n := Step(s, Answered(false, body)).next;
            && !n.shown.loading && n.shown.preview && n.shown.error
            && n.shown.upload == s.shown.upload && n.shown.results == s.shown.results
            && n.errorText == (if Truthy(body.error) then body.error.value else DefaultError)
            && n.resizedFile == s.resizedFile
  {
  }

  /** A request that throws, from fetch or from reading the body, goes through the same
      catch: loading hides, preview and the banner show, and the banner holds the thrown
      message. */
  lemma ThrownRequestShowsBanner(s: State, msg: string)
    ensures Step(s, RequestThrew(msg)) ==
            Transition(s.(shown := s.shown.(loading := false, preview := true, error := true), errorText := msg), Quiet)
  {
  }

  /** The results' button reloads the page, which starts over from the loaded state. */
  lemma ReloadStartsOver(s: State)
    ensures Step(s, Reloaded) == Transition(Init(), Quiet)
  {
  }

  /** A successful answer hides loading and shows the rendered reply. */
  lemma SuccessShowsResults(s: State, body: Reply)
    ensures var n := Step(s, Answered(true, body)).next;
            && !n.shown.loading && n.shown.results && n.results == Render(body)
            && n.shown.preview == s.shown.preview && n.shown.error == s.shown.error
  {
  }
}

=== FILE: wrappers.dfy ===
/** Option and Result, the two failure-carrying shapes the model uses. */
module Wrappers {

  /** A value that may be absent: JavaScript's `null`, a missing key. */
  datatype Option<+T> = None | Some(value: T) {

    /** The carried value, or `default` when there is none. */
    function GetOr(default: T): T {
      match this
      case Some(v) => v
      case None => default
    }
  }

  /** Either a computed value or the error that stopped the computation. */
  datatype Result<+R, +E> = Success(value: R) | Failure(error: E)
}
